=== FILE: README.md ===
# MEGAPOST imagem: a Dafny model of the asset generator

The application takes one uploaded product photo and returns a fixed set of AI-generated
marketing assets. There are six images and one short promotional video. This project models
its core:

- the service that builds the prompts, fans out the seven generations, joins them
  all-or-nothing and sorts the video first (`services/geminiService.ts`);
- the upload widget's validation, state and submission (`components/ImageUploader.tsx`);
- the grid's download file names and card keys (`components/ImageGrid.tsx`);
- the category enumeration and the asset record (`types.ts`).

The modules follow those files:

| module | file | contents |
|---|---|---|
| `Outcomes` | `outcomes.dfy` | `Option`, `Result`, JavaScript truthiness of an optional string |
| `Text` | `text.dfy` | the ECMAScript whitespace set, `split` on one character, `trim` |
| `Types` | `types.dfy` | `AssetCategory` with its string values, `MediaType`, `GeneratedAsset` |
| `DataUrl` | `data_url.dfy` | `toDataUrl`, and `preview.split(',')[1]` as `Payload` |
| `Prompts` | `prompts.dfy` | the category switch and the video prompt |
| `Generators` | `generators.dfy` | the image and video generators, and the polling loop |
| `Orchestrator` | `orchestrator.dfy` | dispatch, `Promise.all`, the video-first sort, the whole run |
| `Uploader` | `uploader.dfy` | validation, selection and read events, submit, the enabled button |
| `Grid` | `grid.dfy` | `title.replace(/\s+/g, '_')`, the download name, the React keys |

The remote services are inputs, not code:

- The describer's answer is a `Result<string>`.
- The image request is a function from a prompt to a `Result`: its first image's base64
  bytes, if any, or the error it rejects with.
- The video operation is a function from a prompt to a `Result`: the finished operation's
  video URI, if any, or the error its creation or a status request rejects with.
- `fetch` is a function from a URL to a `Result`: the error the request rejects with, or a
  response with its `ok` flag, its status text, and what reading its body settles to (the
  body's object URL, or the error `blob()` rejects with).

Each of the seven prompts of a run is distinct (`Prompts.PromptIdentifiesCategory`). So keying
the services on the prompt loses nothing.

JavaScript's `undefined`/`null` and falsy empty strings are `Option` plus `Truthy`. Thrown
errors and rejections are `Failure(message)`. An error the source throws itself carries the
source's exact message. A rejected remote call carries the message that call rejects with.

## Model

| member | source | states |
|---|---|---|
| Text.Split | components/ImageUploader.tsx:42 | `split(',')` yields at least one segment; no segment holds the separator; the segments joined with it give back the input |
| Text.SplitJoin | components/ImageUploader.tsx:42 | splitting a join of separator-free parts recovers exactly those parts |
| Text.Trim | services/geminiService.ts:106 | `trim()` leaves neither end whitespace, and the input is leading whitespace, the result, then trailing whitespace |
| Text.TrimUnique | services/geminiService.ts:106 | whatever whitespace surrounds a stripped string, trimming returns exactly that string |
| Text.TrimIdempotent | services/geminiService.ts:106 | trimming twice gives the same description as trimming once |
| Types.AllCategoriesComplete | types.ts:2-10 | the enumeration has seven members, each listed once, and every category is one of them |
| Types.ValueInjective | types.ts:2-10 | two categories have the same string value exactly when they are the same member |
| Types.ImageCategoriesAreAllButVideo | services/geminiService.ts:108-115 | six members are image categories; the promotional video is the only one that is not |
| Types.MediaTypeNameInjective | types.ts:15 | `'image'` and `'video'` name different media types |
| DataUrl.ToDataUrl | services/geminiService.ts:7 | the data URL is the header `data:<mime>;base64` and the payload, joined by one comma |
| DataUrl.Payload | components/ImageUploader.tsx:42 | the second comma segment exists exactly when the URL holds a comma; it is the text after the first comma up to the next comma or the end |
| DataUrl.PayloadRoundTrip | components/ImageUploader.tsx:42 | the uploader's split recovers the payload `toDataUrl` wrapped, when neither MIME type nor payload holds a comma |
| DataUrl.PayloadIsFirstSegment | components/ImageUploader.tsx:42 | for any payload, the split recovers the payload only up to its first comma |
| Prompts.ImagePrompt | services/geminiService.ts:52-73 | a prompt exactly for the six image categories, quoting the description; `Unsupported image category` for the video |
| Prompts.PromptIsTemplate | services/geminiService.ts:52-73 | each image category's prompt is fixed text before and after the description, the same text for every description |
| Prompts.VideoPrompt | services/geminiService.ts:11 | the video prompt quotes the description verbatim; its third character is `s`, which no image prompt's is |
| Prompts.PromptIdentifiesCategory | services/geminiService.ts:52-73 | equal image prompts come from the same category whatever the descriptions, and no image prompt equals a video prompt |
| Generators.GenerateImageAsset | services/geminiService.ts:48-92 | succeeds exactly when the request settles with non-empty bytes; the asset is the category, the bytes as a PNG data URL, `image` and the prompt; a rejected request fails with its own error, no bytes with the category's message |
| Generators.GenerateVideoAsset | services/geminiService.ts:12-45 | a rejected operation, fetch or body read fails with its own error; a missing URI and a response that is not `ok` each fail with the source's message; otherwise the asset is the promotional video at the body's object URL |
| Generators.AwaitOperation | services/geminiService.ts:23-26 | polling stops at the first report that is done, after as many status requests as reports skipped, and never skips a done report |
| Orchestrator.All | services/geminiService.ts:122 | `Promise.all` succeeds exactly when every generation does, with their values in dispatch order; a failure carries one generation's error |
| Orchestrator.VideoFirst | services/geminiService.ts:125-129 | the sorted results are a permutation of the input in which every video precedes every image |
| Orchestrator.VideoFirstStable | services/geminiService.ts:125-129 | within each media type, the sorted results keep their original order |
| Orchestrator.VideoFirstSorted | services/geminiService.ts:125-129 | with exactly one video, the result is ordered under the source's comparator |
| Orchestrator.StableSortIsVideoFirst | services/geminiService.ts:125-129 | with exactly one video, any comparator-ordered permutation that keeps the images in order is this result |
| Orchestrator.GroupedIsPartition | services/geminiService.ts:125-129 | a sequence whose videos all precede its images is its videos followed by its images |
| Orchestrator.DispatchShape | services/geminiService.ts:108-120 | seven generations: the six image categories in list order, then the video; each category named once |
| Orchestrator.SettledLayout | services/geminiService.ts:117-120 | outcome `i < 6` is the image generator for the `i`-th category; outcome 6 is the video generator |
| Orchestrator.GenerateMarketingAssets | services/geminiService.ts:94-131 | a failed description is the run's error; otherwise the run succeeds exactly when all seven generations for the trimmed description do, and returns the video first, then the six images in category order; a failed run carries the error of one of its seven generations |
| Orchestrator.AssembleSucceedsIff | services/geminiService.ts:117-122 | a run succeeds exactly when all six images are delivered and the video has a URI that downloads |
| Orchestrator.AssembleLayout | services/geminiService.ts:117-131 | a successful run returns the video asset first, then the six image assets in category order |
| Orchestrator.AssembleFailure | services/geminiService.ts:122 | a failed run fails with the error of one of its seven generations |
| Orchestrator.AssembleTitles | services/geminiService.ts:108-131 | in a successful run titles are pairwise distinct; an asset is a video exactly when titled the promotional video; every prompt quotes the description |
| Uploader.Validate | components/ImageUploader.tsx:17-29 | a file passes exactly when its type is JPEG, PNG or WEBP and its size is at most 5 MiB; the type message takes precedence |
| Uploader.SizeBoundary | components/ImageUploader.tsx:24 | exactly 5 MiB passes; one byte more is reported as too large |
| Uploader.TypeCheckedFirst | components/ImageUploader.tsx:18-28 | a file of the wrong type is reported as such even when it is also too large |
| Uploader.SelectFile | components/ImageUploader.tsx:15-38 | no file changes nothing; a rejected file clears file and preview and shows its error; an accepted one clears the error and starts a read |
| Uploader.ReadFinished | components/ImageUploader.tsx:32-35 | a finished read sets the preview whichever file is chosen now: to its file's data URL when it succeeded, to nothing when it failed; exactly that read leaves the pending reads |
| Uploader.Submit | components/ImageUploader.tsx:40-44 | submits exactly when a file is chosen and the preview is non-empty; sends the preview's payload and the file's own MIME type |
| Uploader.SubmitEnabled | components/ImageUploader.tsx:82 | the button is enabled exactly when a file is chosen, the parent allows it, and no error is shown |
| Uploader.ReplayConsistent | components/ImageUploader.tsx:15-38 | after any events the chosen file is valid and error-free, errors are the two messages, and reads in flight are of valid files |
| Uploader.SubmittedTypeAccepted | components/ImageUploader.tsx:43 | whatever happened, a submission carries one of the three accepted MIME types |
| Uploader.EnabledIffFileChosen | components/ImageUploader.tsx:82 | whatever happened, the button is enabled exactly when a file is chosen and the parent allows it |
| Uploader.StalePreviewSubmission | components/ImageUploader.tsx:30-36 | choosing file A, its read finishing, then choosing file B makes a submission send A's data with B's MIME type |
| Uploader.LateReadOverwrites | components/ImageUploader.tsx:33-35 | a read of an earlier file that finishes last becomes the preview of the later chosen file |
| Uploader.SelectFileFixed | components/ImageUploader.tsx:30-36 | corrected: accepting a file chooses it, clears the error and the preview, and starts its read; the other cases are unchanged |
| Uploader.ReadFinishedFixed | components/ImageUploader.tsx:32-35 | corrected: a finished read of the still-chosen file sets the preview (its data URL, or nothing when the read failed); any other read leaves the preview alone; exactly that read leaves the pending reads |
| Uploader.ReplayFixedConsistent | components/ImageUploader.tsx:15-38 | corrected: after any events the state is consistent and any preview is the chosen file's data URL |
| Uploader.SubmissionIsChosenFile | components/ImageUploader.tsx:40-44 | corrected: a submission carries exactly the chosen file's base64 content and MIME type |
| Uploader.ChosenFileSubmits | components/ImageUploader.tsx:30-44 | corrected: after any history, choosing an accepted file and letting its read succeed makes a submission of exactly that file |
| Grid.Collapse | components/ImageGrid.tsx:13 | `replace(/\s+/g, '_')` leaves no whitespace and never lengthens the title |
| Grid.CollapseIdentity | components/ImageGrid.tsx:13 | a title without whitespace is unchanged |
| Grid.CollapseIdempotent | components/ImageGrid.tsx:13 | replacing twice is replacing once |
| Grid.CollapseRun | components/ImageGrid.tsx:13 | each maximal whitespace run becomes one `_`, and the text on either side is replaced independently |
| Grid.CollapseKeepsLetters | components/ImageGrid.tsx:13 | the characters other than whitespace and `_` survive in order |
| Grid.CollapseWords | components/ImageGrid.tsx:13 | words separated by single spaces come out joined by `_` |
| Grid.Extension | components/ImageGrid.tsx:13 | the extension is `mp4` exactly for a video, `png` otherwise |
| Grid.DownloadName | components/ImageGrid.tsx:13 | the name is the replaced title, a dot and the extension; the stem holds no whitespace |
| Grid.ProductPhotoDownloadName | components/ImageGrid.tsx:13 | a product photo downloads as `Product_Photo_(White_Background).png` |
| Grid.VideoDownloadName | components/ImageGrid.tsx:13 | the promotional video downloads as `Promotional_Video.mp4` |
| Grid.Keys | components/ImageGrid.tsx:46-48 | one key per asset; two assets' keys are equal exactly when their titles are, so assets sharing a title clash |
| Grid.RunKeysUnique | components/ImageGrid.tsx:47 | the assets of any successful run get pairwise distinct keys |

## Left out

- The SDK calls, the describer's request, `fetch`, `blob()` and `URL.createObjectURL` are inputs. Their own behaviour is not modelled.
- The 10-second wait between polls is not modelled. `Generators.AwaitOperation` works over the finite sequence of reports the service returns. A service that never finishes keeps the source waiting forever; `AwaitOperation` reports that it is still waiting.
- Orchestrator.GenerateMarketingAssets: the run assumes the video operation finishes. Its video input is what the finished operation settles to, so every modelled run returns. In the source, an operation that never reports done keeps the run waiting forever (services/geminiService.ts:23-26 has no bound), and the run never settles.
- Orchestrator.All: `Promise.all` rejects with the first rejection in time. The model cannot see timing, so it picks the first failing generation in dispatch order. The contract promises only that the error is one of the generations' errors.
- Orchestrator.VideoFirstSorted: stated for runs with exactly one video, as every run has. With two or more videos the source's comparator is inconsistent (`compare(a, b) = compare(b, a) = -1`), and `Array.prototype.sort` leaves the order to the engine. Even with one video the comparator is not consistent in the sense of ECMA-262, since comparing the video with itself gives -1. The model assumes an engine that never compares an element with itself, as real engines do not.
- The sort is modelled by its result, a stable partition. The JavaScript engine's sorting algorithm is not modelled.
- The describer's `text` being `undefined` (so `trim()` throws) is folded into the describer's `Failure`.
- A response without a `generatedImages` list, or whose first record lacks an `image` field, makes the source throw a `TypeError`. This is folded into the image request's rejection, whose message is an input; the engine's wording of that message is not modelled.
- The code has no category selection, no partial results and no list of failed categories. It dispatches a fixed set of seven generations (services/geminiService.ts:108-120) and fails the whole run on any failure (line 122). Nothing of the kind is modelled.
- The aspect ratios, model names and resolution in the requests are constants passed to the SDK. They do not affect any modelled result.
- `FileReader` is modelled by its result: the data URL of the file's base64 content when the read succeeds, and `null` (no preview) when it fails or is aborted. Whether a read fails is an input of the read event. The encoding of bytes to base64 is not modelled, and a file's content is given as base64 text.
- Whitespace for `\s` and `trim()` is a fixed list: the ECMAScript WhiteSpace and LineTerminator code points, with today's Unicode `Zs` characters. A later Unicode version that adds a `Zs` character is not covered.
- `App.tsx`, `Loader.tsx` and `AdminPanel.tsx` are presentation and bootstrapping, outside the modelled core.

## Findings

| source | as written | input that shows it | evidently intended | confidence | as-written member | corrected member |
|---|---|---|---|---|---|---|
| components/ImageUploader.tsx:30-36 | accepting a new file keeps the old preview until the new read finishes, and every finished read overwrites the preview | choose `a.png`, let its read finish, choose `b.jpg`, submit before the second read finishes | the submission carries the chosen file's own data and type | not executed | Uploader.StalePreviewSubmission | Uploader.SubmissionIsChosenFile |

As written, that input sends `a.png`'s base64 labelled `image/jpeg`. In the corrected model, accepting a file clears the preview (`Uploader.SelectFileFixed`). A finished read is ignored unless its file is still the chosen one (`Uploader.ReadFinishedFixed`). Under these two changes every submission is exactly the chosen file (`Uploader.SubmissionIsChosenFile`). Choosing an accepted file and letting its read succeed still always yields a submission of it (`Uploader.ChosenFileSubmits`).

=== FILE: data_url.dfy ===
/** `data:` URLs carrying a base64 payload: how the service encodes image bytes and how the
    uploader recovers the payload from the preview the browser produced. */
module DataUrl {
  import opened Outcomes
  import opened Text

  /** A character of the base64 alphabet, padding included. */
  predicate IsBase64Char(c: char)
  {
    ('A' <= c <= 'Z') || ('a' <= c <= 'z') || ('0' <= c <= '9') || c == '+' || c == '/' || c == '='
  }

  predicate IsBase64(s: string)
  {
    forall i :: 0 <= i < |s| ==> IsBase64Char(s[i])
  }

  /** Base64 text never contains the comma that separates a data URL's header from its payload. */
  lemma Base64HasNoComma(s: string)
    requires IsBase64(s)
    ensures ',' !in s
  {
  }

  /** The header of a base64 data URL: everything before the separating comma. */
  function Header(mimeType: string): string
  {
    "data:" + mimeType + ";base64"
  }

  /** `toDataUrl(base64, mimeType)`: the header, a comma, then the payload unchanged. */
  function ToDataUrl(payload: string, mimeType: string): (r: string)
    ensures r == Join([Header(mimeType), payload], ',')
    ensures |r| == |mimeType| + |payload| + 13
  {
    Header(mimeType) + "," + payload
  }

  /** A split yields more than one segment exactly when the separator occurs. */
  lemma SplitSeveralIffSeparator(s: string, sep: char)
    ensures |Split(s, sep)| > 1 <==> sep in s
  {
    var parts := Split(s, sep);
    if |parts| == 1 {
      assert s == parts[0];
    } else {
      assert s == parts[0] + [sep] + Join(parts[1..], sep);
      assert s[|parts[0]|] == sep;
    }
  }

  /** `url.split(',')[1]`: the second comma-separated segment, or `undefined` when the URL
      holds no comma at all. */
  function Payload(url: string): (r: Option<string>)
    ensures r.Some? <==> ',' in url
    ensures r.Some? ==> ',' !in r.value
    ensures r.Some? ==> exists head, tail :: SecondSegment(url, head, r.value, tail)
  {
    var parts := Split(url, ',');
    SplitSeveralIffSeparator(url, ',');
    if |parts| > 1 then
      var rest := RestAfterFirst(parts[1..]);
      assert url == parts[0] + [','] + (parts[1] + rest);
      assert url == (parts[0] + [',']) + parts[1] + rest;
      assert SecondSegment(url, parts[0], parts[1], rest);
      Some(parts[1])
    else None
  }

  /** `url` is a comma-free first segment `head`, a comma, `segment`, and then either nothing or
      the next comma and whatever follows it: `segment` is the text between the first and second
      commas. */
  predicate SecondSegment(url: string, head: string, segment: string, tail: string)
  {
    && ',' !in head
    && url == head + [','] + segment + tail
    && (tail == [] || tail[0] == ',')
  }

  /** What follows the first part of a join: empty, or a comma and the rest. */
  function RestAfterFirst(parts: seq<string>): (r: string)
    requires |parts| >= 1
    ensures Join(parts, ',') == parts[0] + r
  {
    if |parts| == 1 then "" else [','] + Join(parts[1..], ',')
  }

  /** The uploader's split inverts `toDataUrl` whenever neither the MIME type nor the
      payload contains a comma. */
  lemma PayloadRoundTrip(payload: string, mimeType: string)
    requires ',' !in mimeType && ',' !in payload
    ensures Payload(ToDataUrl(payload, mimeType)) == Some(payload)
  {
    var header := Header(mimeType);
    assert ',' !in header by {
      assert header == "data:" + mimeType + ";base64";
    }
    SplitJoin([header, payload], ',');
  }

  /** Whatever the payload, the uploader recovers its text up to the first comma: a payload
      holding a comma comes back truncated. */
  lemma PayloadIsFirstSegment(payload: string, mimeType: string)
    requires ',' !in mimeType
    ensures Payload(ToDataUrl(payload, mimeType)) == Some(Split(payload, ',')[0])
  {
    var header := Header(mimeType);
    assert ',' !in header by {
      assert header == "data:" + mimeType + ";base64";
    }
    SplitAtFirst(header, ',', payload);
    assert ToDataUrl(payload, mimeType) == header + [','] + payload;
  }
}

=== FILE: generators.dfy ===
/** The two asset generators: how the outcome of a remote image or video generation becomes a
    `GeneratedAsset`, and the loop that waits for a video operation to finish. The remote calls
    themselves are inputs: each service is a function from the prompt it is sent to its outcome. */
module Generators {
  import opened Outcomes
  import opened Text
  import opened Types
  import opened DataUrl
  import opened Prompts

  /** What the image request settles to for a prompt. It rejects when the SDK call does, and
      when the response lacks the `generatedImages` list or its first record lacks the `image`
      field, so that reading it throws a `TypeError`; the rejection carries that error's message.
      Otherwise it carries the base64 bytes of the first image, or nothing when none came back. */
  type ImageService = string -> Result<Option<string>>

  /** What the video operation settles to for a prompt once it is done. It rejects when
      `generateVideos` or one of the status requests does; otherwise it carries the URI of the
      first generated video, or nothing. */
  type VideoService = string -> Result<Option<string>>

  /** The response to fetching a URL: its `ok` flag, its status text, and what reading the body
      settles to: the object URL the browser assigns to it, or the error `blob()` rejects with. */
  datatype FetchResponse = FetchResponse(ok: bool, statusText: string, body: Result<string>)

  /** `fetch`: a response, or the error the request rejects with. */
  type Fetcher = string -> Result<FetchResponse>

  const UriMissing := "Video generation failed to return a valid URI."

  function ImageFailed(c: AssetCategory): string
  {
    "Image generation failed for category: " + Value(c)
  }

  function FetchFailed(statusText: string): string
  {
    "Failed to fetch video file: " + statusText
  }

  /** The address the finished video is downloaded from: its URI with the access key appended. */
  function DownloadUrl(uri: string, apiKey: string): string
  {
    uri + "&key=" + apiKey
  }

  /** The image generator: the category's prompt, one call to the image model, and the
      resulting asset with the bytes wrapped as a PNG data URL. A rejected call is the
      generation's error. */
  function GenerateImageAsset(description: string, c: AssetCategory, images: ImageService)
    : (r: Result<GeneratedAsset>)
    ensures r.Success? ==> r.value.title == c && r.value.kind == Image
    ensures r.Success? ==> Contains(r.value.prompt, description)
    ensures !IsImageCategory(c) ==> r == Failure("Unsupported image category")
    ensures IsImageCategory(c) ==>
      var prompt := ImagePrompt(c, description).value;
      var reply := images(prompt);
      && (r.Success? <==> reply.Success? && Truthy(reply.value))
      && (reply.Failure? ==> r == Failure(reply.error))
      && (reply.Success? && !Truthy(reply.value) ==> r == Failure(ImageFailed(c)))
      && (r.Success? ==>
            r.value == GeneratedAsset(c, ToDataUrl(reply.value.value, "image/png"), Image, prompt))
  {
    match ImagePrompt(c, description)
    case Failure(e) => Failure(e)
    case Success(prompt) =>
      match images(prompt)
      case Failure(e) => Failure(e)
      case Success(bytes) =>
        if !Truthy(bytes) then Failure(ImageFailed(c))
        else Success(GeneratedAsset(c, ToDataUrl(bytes.value, "image/png"), Image, prompt))
  }

  /** The video generator once its operation is done: a rejected request, no URI, a failed or
      rejected download and a rejected body read are each an error; otherwise the asset is the
      promotional video at the downloaded body's object URL. */
  function GenerateVideoAsset(description: string, videos: VideoService, fetch: Fetcher, apiKey: string)
    : (r: Result<GeneratedAsset>)
    ensures r.Success? ==> r.value.title == PromotionalVideo && r.value.kind == Video
    ensures r.Success? ==> Contains(r.value.prompt, description)
    ensures var op := videos(VideoPrompt(description));
      && (op.Failure? ==> r == Failure(op.error))
      && (op.Success? && !Truthy(op.value) ==> r == Failure(UriMissing))
    ensures var op := videos(VideoPrompt(description));
      op.Success? && Truthy(op.value) ==>
      var reply := fetch(DownloadUrl(op.value.value, apiKey));
      && (reply.Failure? ==> r == Failure(reply.error))
      && (reply.Success? && !reply.value.ok ==> r == Failure(FetchFailed(reply.value.statusText)))
      && (reply.Success? && reply.value.ok && reply.value.body.Failure? ==>
            r == Failure(reply.value.body.error))
      && (r.Success? <==> reply.Success? && reply.value.ok && reply.value.body.Success?)
      && (r.Success? ==>
            r.value == GeneratedAsset(PromotionalVideo, reply.value.body.value, Video, VideoPrompt(description)))
  {
    var prompt := VideoPrompt(description);
    match videos(prompt)
    case Failure(e) => Failure(e)
    case Success(uri) =>
      if !Truthy(uri) then Failure(UriMissing)
      else
        match fetch(DownloadUrl(uri.value, apiKey))
        case Failure(e) => Failure(e)
        case Success(response) =>
          if !response.ok then Failure(FetchFailed(response.statusText))
          else
            match response.body
            case Failure(e) => Failure(e)
            case Success(url) => Success(GeneratedAsset(PromotionalVideo, url, Video, prompt))
  }

  /** The state of a long-running video operation as the service reports it. */
  datatype Operation = Operation(done: bool, videoUri: Option<string>)

  /** The polling loop: `reports` holds the operation returned by the generation request followed
      by what each successive status request returns. The loop stops at the first report that is
      done, having made that many status requests; if no report is done, it is still waiting. */
  method AwaitOperation(reports: seq<Operation>) returns (final: Option<Operation>, polls: nat)
    ensures final.Some? ==> polls < |reports| && final.value == reports[polls] && final.value.done
    ensures final.None? ==> polls == |reports|
    ensures forall j :: 0 <= j < polls && j < |reports| ==> !reports[j].done
  {
    polls := 0;
    while polls < |reports| && !reports[polls].done
      invariant polls <= |reports|
      invariant forall j :: 0 <= j < polls ==> !reports[j].done
    {
      polls := polls + 1;
    }
    final := if polls < |reports| then Some(reports[polls]) else None;
  }
}

=== FILE: grid.dfy ===
/** The asset grid: the file name a download is saved under, and the keys the grid renders
    its cards with. */
module Grid {
  import opened Text
  import opened Types
  import Orchestrator

  /** `title.replace(/\s+/g, '_')`: every maximal run of whitespace becomes a single `_`. */
  function Collapse(s: string): (r: string)
    ensures NoWhitespace(r)
    ensures |r| <= |s|
    decreases |s|
  {
    if |s| == 0 then []
    else if !IsWhitespace(s[0]) then [s[0]] + Collapse(s[1..])
    else "_" + Collapse(TrimStart(s))
  }

  /** A string without whitespace is left as it is. */
  lemma {:induction false} CollapseIdentity(s: string)
    requires NoWhitespace(s)
    ensures Collapse(s) == s
    decreases |s|
  {
    if |s| > 0 {
      CollapseIdentity(s[1..]);
      assert [s[0]] + s[1..] == s;
    }
  }

  /** Replacing the whitespace of the result again changes nothing. */
  lemma CollapseIdempotent(s: string)
    ensures Collapse(Collapse(s)) == Collapse(s)
  {
    CollapseIdentity(Collapse(s));
  }

  /** Leading whitespace stops at the first non-whitespace character, so what follows it is
      untouched. */
  lemma {:induction false} TrimStartAppend(x: string, y: string)
    requires !AllWhitespace(x)
    ensures TrimStart(x + y) == TrimStart(x) + y
    decreases |x|
  {
    if IsWhitespace(x[0]) {
      assert (x + y)[1..] == x[1..] + y;
      assert !AllWhitespace(x[1..]) by {
        var k :| 0 <= k < |x| && !IsWhitespace(x[k]);
        assert x[1..][k - 1] == x[k];
      }
      TrimStartAppend(x[1..], y);
    }
  }

  /** Replacement works piecewise across a boundary that is not inside a whitespace run. */
  lemma {:induction false} CollapseAppend(x: string, y: string)
    requires x == [] || !IsWhitespace(x[|x| - 1])
    ensures Collapse(x + y) == Collapse(x) + Collapse(y)
    decreases |x|
  {
    if |x| == 0 {
      assert x + y == y;
    } else if !IsWhitespace(x[0]) {
      CollapseAppend(x[1..], y);
      CollapseAppendWord(x, y);
    } else {
      var t := TrimStart(x);
      assert |t| > 0 && t[|t| - 1] == x[|x| - 1] by {
        assert !AllWhitespace(x);
        assert t == x[|x| - |t|..];
      }
      CollapseAppend(t, y);
      CollapseAppendSpace(x, y);
    }
  }

  /** One step of `CollapseAppend` when `x` starts with a kept character. */
  lemma CollapseAppendWord(x: string, y: string)
    requires |x| > 0 && !IsWhitespace(x[0])
    requires Collapse(x[1..] + y) == Collapse(x[1..]) + Collapse(y)
    ensures Collapse(x + y) == Collapse(x) + Collapse(y)
  {
    Uncons(x, y);
    Associative([x[0]], Collapse(x[1..]), Collapse(y));
  }

  /** One step of `CollapseAppend` when `x` starts with a whitespace run that ends inside `x`. */
  lemma CollapseAppendSpace(x: string, y: string)
    requires |x| > 0 && IsWhitespace(x[0]) && !IsWhitespace(x[|x| - 1])
    requires Collapse(TrimStart(x) + y) == Collapse(TrimStart(x)) + Collapse(y)
    ensures Collapse(x + y) == Collapse(x) + Collapse(y)
  {
    var xy := x + y;
    assert xy[0] == x[0];
    assert !AllWhitespace(x);
    TrimStartAppend(x, y);
    Associative("_", Collapse(TrimStart(x)), Collapse(y));
  }

  /** Each maximal whitespace run becomes exactly one `_`, and the text on either side is
      replaced independently. Together with `CollapseIdentity` this determines the result. */
  lemma CollapseRun(a: string, w: string, b: string)
    requires a == [] || !IsWhitespace(a[|a| - 1])
    requires |w| > 0 && AllWhitespace(w)
    requires b == [] || !IsWhitespace(b[0])
    ensures Collapse(a + w + b) == Collapse(a) + "_" + Collapse(b)
  {
    Associative(a, w, b);
    CollapseAppend(a, w + b);
    CollapseLeadingRun(w, b);
    Associative(Collapse(a), "_", Collapse(b));
  }

  /** A leading whitespace run becomes one `_`. */
  lemma CollapseLeadingRun(w: string, b: string)
    requires |w| > 0 && AllWhitespace(w)
    requires b == [] || !IsWhitespace(b[0])
    ensures Collapse(w + b) == "_" + Collapse(b)
  {
    var wb := w + b;
    assert wb[0] == w[0] && IsWhitespace(wb[0]);
    assert Collapse(wb) == "_" + Collapse(TrimStart(wb));
    TrimStartSkipsWhitespace(w, b);
    assert TrimStart(b) == b;
  }

  /** The characters other than whitespace and `_`, in order. */
  function Letters(s: string): string
  {
    if |s| == 0 then []
    else (if IsWhitespace(s[0]) || s[0] == '_' then [] else [s[0]]) + Letters(s[1..])
  }

  lemma {:induction false} LettersSkipWhitespace(a: string, x: string)
    requires AllWhitespace(a)
    ensures Letters(a + x) == Letters(x)
    decreases |a|
  {
    if |a| > 0 {
      assert (a + x)[0] == a[0];
      assert (a + x)[1..] == a[1..] + x;
      LettersSkipWhitespace(a[1..], x);
    } else {
      assert a + x == x;
    }
  }

  /** The title's text survives in order: only whitespace turns into `_`. */
  lemma {:induction false} CollapseKeepsLetters(s: string)
    ensures Letters(Collapse(s)) == Letters(s)
    decreases |s|
  {
    if |s| > 0 {
      if !IsWhitespace(s[0]) {
        CollapseKeepsLetters(s[1..]);
        assert ([s[0]] + Collapse(s[1..]))[1..] == Collapse(s[1..]);
      } else {
        var t := TrimStart(s);
        CollapseKeepsLetters(t);
        assert ("_" + Collapse(t))[1..] == Collapse(t);
        assert s == s[..|s| - |t|] + t;
        LettersSkipWhitespace(s[..|s| - |t|], t);
      }
    }
  }

  /** Words separated by single spaces come out joined by `_`. */
  lemma {:induction false} CollapseWords(words: seq<string>)
    requires |words| >= 1
    requires forall i :: 0 <= i < |words| ==> |words[i]| > 0 && NoWhitespace(words[i])
    ensures Collapse(Join(words, ' ')) == Join(words, '_')
    decreases |words|
  {
    if |words| == 1 {
      CollapseIdentity(words[0]);
    } else {
      var rest := Join(words[1..], ' ');
      CollapseWords(words[1..]);
      assert rest == [] || rest[0] == words[1][0] by {
        JoinStartsWithFirst(words[1..], ' ');
      }
      CollapseRun(words[0], " ", rest);
      CollapseIdentity(words[0]);
    }
  }

  lemma {:induction false} JoinStartsWithFirst(parts: seq<string>, sep: char)
    requires |parts| >= 1
    ensures |Join(parts, sep)| >= |parts[0]| && Join(parts, sep)[..|parts[0]|] == parts[0]
    decreases |parts|
  {
    if |parts| > 1 {
      JoinStartsWithFirst(parts[1..], sep);
    }
  }

  /** The extension a download is saved with. */
  function Extension(m: MediaType): (e: string)
    ensures e == "mp4" <==> m == Video
    ensures m == Image ==> e == "png"
  {
    if m == Video then "mp4" else "png"
  }

  /** `AssetCard.handleDownload`'s file name: the title with its whitespace runs replaced,
      a dot, and the extension for the asset's media type. */
  function DownloadName(asset: GeneratedAsset): (name: string)
    ensures name == Collapse(Value(asset.title)) + "." + Extension(asset.kind)
    ensures NoWhitespace(name[..|name| - 4])
  {
    var stem := Collapse(Value(asset.title));
    var name := stem + "." + Extension(asset.kind);
    assert name[..|name| - 4] == stem;
    name
  }

  /** The file name of a product photo, from the source's own title: each space became `_`
      and the parentheses are kept. The name is `Product_Photo_(White_Background).png`. */
  lemma ProductPhotoDownloadName(asset: GeneratedAsset)
    requires asset.title == ProductPhoto && asset.kind == Image
    ensures DownloadName(asset) == "Product" + ("_" + ("Photo" + ("_" + ("(White" + ("_" + "Background)"))))) + ".png"
  {
    ProductPhotoWords();
    WordsWithoutWhitespace();
    CollapseFourWords("Product", "Photo", "(White", "Background)");
  }

  lemma ProductPhotoWords()
    ensures Value(ProductPhoto) == "Product" + (" " + ("Photo" + (" " + ("(White" + (" " + "Background)")))))
  {
  }

  lemma WordsWithoutWhitespace()
    ensures NoWhitespace("Product") && NoWhitespace("Photo")
    ensures NoWhitespace("(White") && NoWhitespace("Background)")
  {
  }

  lemma CollapseFourWords(a: string, b: string, c: string, d: string)
    requires |a| > 0 && NoWhitespace(a) && |b| > 0 && NoWhitespace(b)
    requires |c| > 0 && NoWhitespace(c) && |d| > 0 && NoWhitespace(d)
    ensures Collapse(a + (" " + (b + (" " + (c + (" " + d))))))
              == a + ("_" + (b + ("_" + (c + ("_" + d)))))
  {
    Uncons(b, " " + (c + (" " + d)));
    CollapseSpace(a, b + (" " + (c + (" " + d))));
    Uncons(c, " " + d);
    CollapseSpace(b, c + (" " + d));
    CollapseSpace(c, d);
    CollapseIdentity(d);
  }

  /** One space between a word and the rest of the title becomes `_`. */
  lemma CollapseSpace(a: string, b: string)
    requires |a| > 0 && NoWhitespace(a)
    requires b == [] || !IsWhitespace(b[0])
    ensures Collapse(a + (" " + b)) == a + ("_" + Collapse(b))
  {
    Associative(a, " ", b);
    CollapseRun(a, " ", b);
    CollapseIdentity(a);
    Associative(a, "_", Collapse(b));
  }

  /** The file name of the promotional video, from the source's own title. */
  lemma VideoDownloadName(url: string, prompt: string)
    ensures DownloadName(GeneratedAsset(PromotionalVideo, url, Video, prompt)) == "Promotional_Video.mp4"
  {
    var words := ["Promotional", "Video"];
    assert Join(words[1..], ' ') == "Video";
    assert Join(words, ' ') == Value(PromotionalVideo);
    CollapseWords(words);
    assert Join(words[1..], '_') == "Video";
  }

  /** The React keys of the grid's cards: each asset's title. */
  function Keys(assets: seq<GeneratedAsset>): (keys: seq<string>)
    ensures |keys| == |assets|
    ensures forall i, j :: 0 <= i < |assets| && 0 <= j < |assets| ==>
      (keys[i] == keys[j] <==> assets[i].title == assets[j].title)
  {
    ValuesIdentifyCategories();
    seq(|assets|, i requires 0 <= i < |assets| => Value(assets[i].title))
  }

  /** Two categories' string values agree exactly when the categories do. */
  lemma ValuesIdentifyCategories()
    ensures forall c, d :: Value(c) == Value(d) <==> c == d
  {
    forall c, d
      ensures Value(c) == Value(d) <==> c == d
    {
      ValueInjective(c, d);
    }
  }

  /** The assets of any successful run have pairwise distinct titles, so the grid's keys are
      unique. */
  lemma RunKeysUnique(d: string, backend: Orchestrator.Backend)
    requires Orchestrator.Assemble(d, backend).Success?
    ensures var keys := Keys(Orchestrator.Assemble(d, backend).value);
      forall i, j :: 0 <= i < j < |keys| ==> keys[i] != keys[j]
  {
    var assets := Orchestrator.Assemble(d, backend).value;
    Orchestrator.AssembleTitles(d, backend);
    forall i, j | 0 <= i < j < |assets|
      ensures assets[i].title != assets[j].title
    {
    }
  }
}

=== FILE: orchestrator.dfy ===
/** One generation run: the product description, the seven generations it dispatches, the
    all-or-nothing join of their outcomes, and the video-first ordering of the result. */
module Orchestrator {
  import opened Outcomes
  import opened Text
  import opened Types
  import opened DataUrl
  import opened Prompts
  import opened Generators

  /** The image categories every run requests, in request order. */
  const ImageCategories: seq<AssetCategory> :=
    [ProductPhoto, LifestyleMockup, PromotionalBanner, InstagramPost, YouTubeThumbnail, ShadowEffect]

  /** One dispatched generation. */
  datatype Generation = ImageGeneration(category: AssetCategory) | VideoGeneration

  /** The generations of a run, in dispatch order: one per image category, then the video. */
  function Dispatch(): seq<Generation>
  {
    seq(|ImageCategories|, i requires 0 <= i < |ImageCategories| => ImageGeneration(ImageCategories[i]))
      + [VideoGeneration]
  }

  /** Everything the remote side contributes to one run: the outcome of the description request
      (its text, or the error it failed with), the image and video models, the downloader, and
      the access key appended to the video download. */
  datatype Backend = Backend(
    describe: Result<string>,
    images: ImageService,
    videos: VideoService,
    fetch: Fetcher,
    apiKey: string)

  function Perform(description: string, g: Generation, backend: Backend): Result<GeneratedAsset>
  {
    match g
    case ImageGeneration(c) => GenerateImageAsset(description, c, backend.images)
    case VideoGeneration => GenerateVideoAsset(description, backend.videos, backend.fetch, backend.apiKey)
  }

  /** `Promise.all` over settled outcomes: every value in order when all succeed, otherwise the
      error of a generation that failed (here the first one in dispatch order). */
  function All<T>(rs: seq<Result<T>>): (r: Result<seq<T>>)
    ensures r.Success? <==> forall i :: 0 <= i < |rs| ==> rs[i].Success?
    ensures r.Success? ==> |r.value| == |rs| && forall i :: 0 <= i < |rs| ==> r.value[i] == rs[i].value
    ensures r.Failure? ==> exists i :: 0 <= i < |rs| && rs[i].Failure? && rs[i].error == r.error
  {
    if |rs| == 0 then Success([])
    else
      match rs[0]
      case Failure(e) => Failure(e)
      case Success(v) =>
        match All(rs[1..])
        case Failure(e) => Failure(e)
        case Success(vs) => Success([v] + vs)
  }

  // ---------------------------------------------------------------------------
  // video-first ordering
  // ---------------------------------------------------------------------------

  /** The elements of `xs` that `keep` accepts, in their original order. */
  function Select<T>(xs: seq<T>, keep: T -> bool): (ys: seq<T>)
    ensures |ys| <= |xs|
    ensures forall i :: 0 <= i < |ys| ==> keep(ys[i])
  {
    if |xs| == 0 then []
    else (if keep(xs[0]) then [xs[0]] else []) + Select(xs[1..], keep)
  }

  /** Two complementary selections together are a permutation of the whole. */
  lemma {:induction false} SelectPartition<T>(xs: seq<T>, keep: T -> bool, drop: T -> bool)
    requires forall x :: drop(x) == !keep(x)
    ensures multiset(Select(xs, keep) + Select(xs, drop)) == multiset(xs)
  {
    if |xs| > 0 {
      SelectPartition(xs[1..], keep, drop);
      assert xs == [xs[0]] + xs[1..];
    }
  }

  /** Selection distributes over concatenation. */
  lemma {:induction false} SelectAppend<T>(xs: seq<T>, ys: seq<T>, keep: T -> bool)
    ensures Select(xs + ys, keep) == Select(xs, keep) + Select(ys, keep)
  {
    if |xs| == 0 {
      assert xs + ys == ys;
    } else {
      assert (xs + ys)[1..] == xs[1..] + ys;
      SelectAppend(xs[1..], ys, keep);
    }
  }

  /** Selecting from a sequence every element of which is accepted keeps all of it. */
  lemma {:induction false} SelectEvery<T>(xs: seq<T>, keep: T -> bool)
    requires forall i :: 0 <= i < |xs| ==> keep(xs[i])
    ensures Select(xs, keep) == xs
  {
    if |xs| > 0 {
      SelectEvery(xs[1..], keep);
      assert [xs[0]] + xs[1..] == xs;
    }
  }

  /** Selecting from a sequence no element of which is accepted keeps nothing. */
  lemma {:induction false} SelectNone<T>(xs: seq<T>, keep: T -> bool)
    requires forall i :: 0 <= i < |xs| ==> !keep(xs[i])
    ensures Select(xs, keep) == []
  {
    if |xs| > 0 {
      SelectNone(xs[1..], keep);
    }
  }

  /** The test that an asset has media type `k`. */
  function HasKind(k: MediaType): GeneratedAsset -> bool
  {
    (a: GeneratedAsset) => a.kind == k
  }

  /** The assets of one media type, in their original order. */
  function OfKind(xs: seq<GeneratedAsset>, k: MediaType): (ys: seq<GeneratedAsset>)
    ensures |ys| <= |xs|
    ensures forall i :: 0 <= i < |ys| ==> ys[i].kind == k
  {
    Select(xs, HasKind(k))
  }

  /** The comparator the run sorts its results with. */
  function Compare(a: GeneratedAsset, b: GeneratedAsset): int
  {
    if a.kind == Video then -1
    else if b.kind == Video then 1
    else 0
  }

  /** Every video comes before every image. */
  predicate VideosLead(r: seq<GeneratedAsset>)
  {
    forall i, j :: 0 <= i < j < |r| && r[j].kind == Video ==> r[i].kind == Video
  }

  /** The sorted result: the videos, then the images, each group in its original order. */
  function VideoFirst(xs: seq<GeneratedAsset>): (r: seq<GeneratedAsset>)
    ensures multiset(r) == multiset(xs)
    ensures VideosLead(r)
  {
    KindsPartition(xs);
    OfKind(xs, Video) + OfKind(xs, Image)
  }

  lemma KindsPartition(xs: seq<GeneratedAsset>)
    ensures multiset(OfKind(xs, Video) + OfKind(xs, Image)) == multiset(xs)
  {
    SelectPartition(xs, HasKind(Video), HasKind(Image));
  }

  lemma OfKindAppend(xs: seq<GeneratedAsset>, ys: seq<GeneratedAsset>, k: MediaType)
    ensures OfKind(xs + ys, k) == OfKind(xs, k) + OfKind(ys, k)
  {
    SelectAppend(xs, ys, HasKind(k));
  }

  /** Filtering a sequence already of one kind keeps all of it; filtering for the other keeps none. */
  lemma OfKindUniform(xs: seq<GeneratedAsset>, k: MediaType)
    requires forall i :: 0 <= i < |xs| ==> xs[i].kind == k
    ensures OfKind(xs, k) == xs
    ensures forall m :: m != k ==> OfKind(xs, m) == []
  {
    SelectEvery(xs, HasKind(k));
    forall m | m != k
      ensures OfKind(xs, m) == []
    {
      SelectNone(xs, HasKind(m));
    }
  }

  /** The ordering is stable: within each media type the original order survives. */
  lemma VideoFirstStable(xs: seq<GeneratedAsset>)
    ensures OfKind(VideoFirst(xs), Video) == OfKind(xs, Video)
    ensures OfKind(VideoFirst(xs), Image) == OfKind(xs, Image)
  {
    var vs := OfKind(xs, Video);
    var ims := OfKind(xs, Image);
    OfKindAppend(vs, ims, Video);
    OfKindAppend(vs, ims, Image);
    OfKindUniform(vs, Video);
    OfKindUniform(ims, Image);
  }

  /** How many videos a sequence holds. */
  function VideoCount(xs: seq<GeneratedAsset>): nat
  {
    |OfKind(xs, Video)|
  }

  /** With exactly one video the comparator is consistent on the result: every earlier element
      sorts no later than every later one. */
  lemma VideoFirstSorted(xs: seq<GeneratedAsset>)
    requires VideoCount(xs) == 1
    ensures var r := VideoFirst(xs);
      forall i, j :: 0 <= i < j < |r| ==> Compare(r[i], r[j]) <= 0
  {
    var r := VideoFirst(xs);
    forall i, j | 0 <= i < j < |r|
      ensures Compare(r[i], r[j]) <= 0
    {
      if i == 0 {
        assert r[i].kind == Video;
      } else {
        assert r[i].kind == Image && r[j].kind == Image;
      }
    }
  }

  /** A sequence in which every video comes before every image splits into its videos
      followed by its images. */
  lemma {:induction false} GroupedIsPartition(ys: seq<GeneratedAsset>)
    requires VideosLead(ys)
    ensures ys == OfKind(ys, Video) + OfKind(ys, Image)
  {
    if |ys| > 0 {
      if ys[0].kind == Video {
        var rest := ys[1..];
        assert VideosLead(rest) by {
          forall i, j | 0 <= i < j < |rest| && rest[j].kind == Video
            ensures rest[i].kind == Video
          {
            assert ys[j + 1].kind == Video;
          }
        }
        GroupedIsPartition(rest);
        var videos, images := OfKind(rest, Video), OfKind(rest, Image);
        assert ys == [ys[0]] + rest;
        OfKindAppend([ys[0]], rest, Video);
        OfKindAppend([ys[0]], rest, Image);
        OfKindUniform([ys[0]], Video);
        assert OfKind(ys, Video) == [ys[0]] + videos;
        assert OfKind(ys, Image) == [] + images == images;
        Associative([ys[0]], videos, images);
      } else {
        OfKindUniform(ys, Image);
      }
    }
  }

  /** A stable sort under the comparator has only one possible result when there is exactly
      one video: any permutation that is ordered by the comparator and keeps the images in
      their original order is the video-first partition. */
  lemma StableSortIsVideoFirst(xs: seq<GeneratedAsset>, ys: seq<GeneratedAsset>)
    requires VideoCount(xs) == 1
    requires multiset(ys) == multiset(xs)
    requires forall i, j :: 0 <= i < j < |ys| ==> Compare(ys[i], ys[j]) <= 0
    requires OfKind(ys, Image) == OfKind(xs, Image)
    ensures ys == VideoFirst(xs)
  {
    assert VideosLead(ys) by {
      forall i, j | 0 <= i < j < |ys| && ys[j].kind == Video
        ensures ys[i].kind == Video
      {
        assert Compare(ys[i], ys[j]) <= 0;
      }
    }
    GroupedIsPartition(ys);
    KindsPartition(ys);
    KindsPartition(xs);
    var vs := OfKind(ys, Video);
    var v := OfKind(xs, Video)[0];
    assert OfKind(xs, Video) == [v];
    var ims := OfKind(xs, Image);
    assert multiset(ys) == multiset(vs) + multiset(ims);
    assert multiset(xs) == multiset([v]) + multiset(ims);
    forall x
      ensures multiset(vs)[x] == multiset{v}[x]
    {
      assert multiset(ys)[x] == multiset(vs)[x] + multiset(ims)[x];
      assert multiset(xs)[x] == multiset([v])[x] + multiset(ims)[x];
    }
    assert multiset(vs) == multiset{v};
    assert |vs| == 1;
    assert vs[0] in multiset(vs);
    assert vs == [v];
  }

  // ---------------------------------------------------------------------------
  // the run
  // ---------------------------------------------------------------------------

  /** The fan-out and fan-in of a run for a given product description: all seven generations,
      all-or-nothing, video first. */
  function Assemble(description: string, backend: Backend): Result<seq<GeneratedAsset>>
  {
    match All(Settled(description, backend))
    case Failure(e) => Failure(e)
    case Success(assets) => Success(VideoFirst(assets))
  }

  /** `generateMarketingAssets`: describe the product, trim the description, then assemble the
      assets. A failed description request is the run's error, and nothing is generated;
      otherwise the run succeeds exactly when every generation for the trimmed description
      does, and then returns the video first and the six images in category order. A failed
      run fails with the error of one of its seven generations. */
  function GenerateMarketingAssets(backend: Backend): (r: Result<seq<GeneratedAsset>>)
    ensures backend.describe.Failure? ==> r == Failure(backend.describe.error)
    ensures backend.describe.Success? ==>
      var d := Trim(backend.describe.value);
      && (r.Success? <==> RunSucceedsPremise(d, backend))
      && (r.Success? ==> VideoFirstLayout(d, backend, r.value))
    ensures backend.describe.Success? && r.Failure? ==>
      exists i :: 0 <= i < 7 && Settled(Trim(backend.describe.value), backend)[i] == Failure(r.error)
  {
    match backend.describe
    case Failure(e) => Failure(e)
    case Success(text) =>
      var d := Trim(text);
      AssembleSucceedsIff(d, backend);
      AssembleFailure(d, backend);
      if Assemble(d, backend).Success? then
        AssembleLayout(d, backend);
        Assemble(d, backend)
      else Assemble(d, backend)
  }

  /** The image request for category `c`'s prompt settled with non-empty bytes. */
  predicate ImageDelivered(description: string, c: AssetCategory, backend: Backend)
    requires IsImageCategory(c)
  {
    var reply := backend.images(ImagePrompt(c, description).value);
    reply.Success? && Truthy(reply.value)
  }

  /** The video operation settled with a URI, and downloading it and reading its body both
      succeeded. */
  predicate VideoDelivered(description: string, backend: Backend)
  {
    var op := backend.videos(VideoPrompt(description));
    && op.Success? && Truthy(op.value)
    && var reply := backend.fetch(DownloadUrl(op.value.value, backend.apiKey));
       reply.Success? && reply.value.ok && reply.value.body.Success?
  }

  /** The asset a delivered image becomes. */
  function ImageAsset(description: string, c: AssetCategory, backend: Backend): GeneratedAsset
    requires IsImageCategory(c) && ImageDelivered(description, c, backend)
  {
    var prompt := ImagePrompt(c, description).value;
    GeneratedAsset(c, ToDataUrl(backend.images(prompt).value.value, "image/png"), Image, prompt)
  }

  /** The asset a delivered video becomes. */
  function VideoAsset(description: string, backend: Backend): GeneratedAsset
    requires VideoDelivered(description, backend)
  {
    var prompt := VideoPrompt(description);
    var uri := backend.videos(prompt).value.value;
    var response := backend.fetch(DownloadUrl(uri, backend.apiKey)).value;
    GeneratedAsset(PromotionalVideo, response.body.value, Video, prompt)
  }

  /** Every run dispatches seven generations: the six image categories in list order, then the
      video; together they name every category exactly once. */
  lemma DispatchShape()
    ensures |Dispatch()| == 7
    ensures forall i :: 0 <= i < 6 ==> Dispatch()[i] == ImageGeneration(ImageCategories[i])
    ensures Dispatch()[6] == VideoGeneration
    ensures forall c :: IsImageCategory(c) <==> c in ImageCategories
    ensures forall i, j :: 0 <= i < j < 6 ==> ImageCategories[i] != ImageCategories[j]
  {
    forall c | IsImageCategory(c)
      ensures c in ImageCategories
    {
      match c
      case ProductPhoto => assert ImageCategories[0] == c;
      case LifestyleMockup => assert ImageCategories[1] == c;
      case PromotionalBanner => assert ImageCategories[2] == c;
      case InstagramPost => assert ImageCategories[3] == c;
      case YouTubeThumbnail => assert ImageCategories[4] == c;
      case ShadowEffect => assert ImageCategories[5] == c;
    }
  }

  /** The outcomes of the seven generations of a run, in dispatch order. */
  function Settled(description: string, backend: Backend): (rs: seq<Result<GeneratedAsset>>)
    ensures |rs| == 7
  {
    seq(|Dispatch()|, i requires 0 <= i < |Dispatch()| => Perform(description, Dispatch()[i], backend))
  }

  /** The six image outcomes in list order, then the video's. */
  lemma SettledLayout(d: string, backend: Backend)
    ensures var rs := Settled(d, backend);
      && (forall i :: 0 <= i < 6 ==> rs[i] == GenerateImageAsset(d, ImageCategories[i], backend.images))
      && rs[6] == GenerateVideoAsset(d, backend.videos, backend.fetch, backend.apiKey)
  {
    DispatchShape();
  }

  /** A run succeeds exactly when all seven generations do: every image model call returned
      bytes, and the video came back with a URI that downloaded. */
  lemma AssembleSucceedsIff(d: string, backend: Backend)
    ensures Assemble(d, backend).Success? <==> RunSucceedsPremise(d, backend)
  {
    var rs := Settled(d, backend);
    DispatchShape();
    SettledLayout(d, backend);
    assert All(rs).Success? <==> forall i :: 0 <= i < 7 ==> rs[i].Success?;
    forall i | 0 <= i < 6
      ensures rs[i].Success? <==> ImageDelivered(d, ImageCategories[i], backend)
    {
      ImageSucceedsIff(d, ImageCategories[i], backend);
    }
    VideoSucceedsIff(d, backend);
  }

  lemma ImageSucceedsIff(d: string, c: AssetCategory, backend: Backend)
    requires IsImageCategory(c)
    ensures GenerateImageAsset(d, c, backend.images).Success? <==> ImageDelivered(d, c, backend)
  {
  }

  lemma VideoSucceedsIff(d: string, backend: Backend)
    ensures var r := GenerateVideoAsset(d, backend.videos, backend.fetch, backend.apiKey);
      r.Success? <==> VideoDelivered(d, backend)
  {
  }

  /** When all seven generations succeed, their assets in dispatch order are the six images
      and then the video. */
  lemma SettledAssets(d: string, backend: Backend)
    requires All(Settled(d, backend)).Success?
    ensures var all := All(Settled(d, backend)).value;
      && |all| == 7
      && VideoDelivered(d, backend)
      && all[6] == VideoAsset(d, backend)
      && forall i :: 0 <= i < 6 ==>
           IsImageCategory(ImageCategories[i]) && ImageDelivered(d, ImageCategories[i], backend)
           && all[i] == ImageAsset(d, ImageCategories[i], backend)
  {
    DispatchShape();
    SettledLayout(d, backend);
  }

  /** `assets` is the delivered video's asset followed by the six delivered images' assets in
      category order. */
  predicate VideoFirstLayout(d: string, backend: Backend, assets: seq<GeneratedAsset>)
  {
    && VideoDelivered(d, backend)
    && |assets| == 7
    && assets[0] == VideoAsset(d, backend)
    && forall i :: 0 <= i < 6 ==>
         IsImageCategory(ImageCategories[i]) && ImageDelivered(d, ImageCategories[i], backend)
         && assets[i + 1] == ImageAsset(d, ImageCategories[i], backend)
  }

  /** A successful run returns the promotional video first, then the six images in list order. */
  lemma AssembleLayout(d: string, backend: Backend)
    requires Assemble(d, backend).Success?
    ensures VideoFirstLayout(d, backend, Assemble(d, backend).value)
  {
    AssembleRotates(d, backend);
    SettledAssets(d, backend);
  }

  /** The sort moves the last settled asset, the video, to the front. */
  lemma AssembleRotates(d: string, backend: Backend)
    requires Assemble(d, backend).Success?
    ensures var all := All(Settled(d, backend)).value;
      |all| == 7 && Assemble(d, backend).value == [all[6]] + all[..6]
  {
    var rs := Settled(d, backend);
    var all := All(rs).value;
    SettledLayout(d, backend);
    assert |all| == 7;
    assert forall i :: 0 <= i < 7 ==> all[i] == rs[i].value;
    var ims := all[..6];
    assert all == ims + [all[6]];
    assert forall i :: 0 <= i < 6 ==> ims[i].kind == Image;
    VideoFirstOfLast(ims, all[6]);
  }

  /** Images followed by one video sort to that video followed by the images. */
  lemma VideoFirstOfLast(ims: seq<GeneratedAsset>, v: GeneratedAsset)
    requires forall i :: 0 <= i < |ims| ==> ims[i].kind == Image
    requires v.kind == Video
    ensures VideoFirst(ims + [v]) == [v] + ims
  {
    OfKindUniform(ims, Image);
    OfKindUniform([v], Video);
    OfKindAppend(ims, [v], Video);
    OfKindAppend(ims, [v], Image);
  }

  /** The condition under which a run succeeds. */
  predicate RunSucceedsPremise(d: string, backend: Backend)
  {
    (forall i :: 0 <= i < 6 ==> ImageDelivered(d, ImageCategories[i], backend))
    && VideoDelivered(d, backend)
  }

  /** A failed run fails with the error of one of its seven generations. */
  lemma AssembleFailure(d: string, backend: Backend)
    ensures Assemble(d, backend).Failure? ==>
      exists i :: 0 <= i < 7 && Settled(d, backend)[i] == Failure(Assemble(d, backend).error)
  {
    if Assemble(d, backend).Failure? {
      assert All(Settled(d, backend)).Failure?;
    }
  }

  /** In a successful run every category appears once, an asset is a video exactly when its
      title is the promotional video, and every prompt quotes the product description. */
  lemma AssembleTitles(d: string, backend: Backend)
    requires Assemble(d, backend).Success?
    ensures var assets := Assemble(d, backend).value;
      && (forall i, j :: 0 <= i < j < |assets| ==> assets[i].title != assets[j].title)
      && (forall i :: 0 <= i < |assets| ==> (assets[i].kind == Video <==> assets[i].title == PromotionalVideo))
      && (forall i :: 0 <= i < |assets| ==> Contains(assets[i].prompt, d))
  {
    var assets := Assemble(d, backend).value;
    AssembledFacts(d, backend);
    DispatchShape();
    forall i, j | 0 <= i < j < |assets|
      ensures assets[i].title != assets[j].title
    {
      assert IsImageCategory(ImageCategories[j - 1]);
    }
  }

  /** The title, media type and prompt of each asset of a successful run, by position. */
  lemma AssembledFacts(d: string, backend: Backend)
    requires Assemble(d, backend).Success?
    ensures var assets := Assemble(d, backend).value;
      && |assets| == 7
      && assets[0].title == PromotionalVideo && assets[0].kind == Video
      && (forall i :: 1 <= i < 7 ==> assets[i].title == ImageCategories[i - 1] && assets[i].kind == Image)
      && (forall i :: 0 <= i < 7 ==> Contains(assets[i].prompt, d))
  {
    var assets := Assemble(d, backend).value;
    var all := All(Settled(d, backend)).value;
    AssembleRotates(d, backend);
    SettledFacts(d, backend);
    assert assets[0] == all[6];
    assert forall i :: 1 <= i < 7 ==> assets[i] == all[i - 1];
  }

  /** The titles, media types and prompts of the seven settled assets. */
  lemma SettledFacts(d: string, backend: Backend)
    requires All(Settled(d, backend)).Success?
    ensures var all := All(Settled(d, backend)).value;
      && |all| == 7
      && (forall i :: 0 <= i < 6 ==> all[i].title == ImageCategories[i] && all[i].kind == Image)
      && all[6].title == PromotionalVideo && all[6].kind == Video
      && (forall i :: 0 <= i < 7 ==> Contains(all[i].prompt, d))
  {
    var rs := Settled(d, backend);
    var all := All(rs).value;
    SettledLayout(d, backend);
    assert forall i :: 0 <= i < 7 ==> all[i] == rs[i].value;
  }
}

=== FILE: outcomes.dfy ===
/** Outcome types standing in for JavaScript's `null`/`undefined` and for thrown errors. */
module Outcomes {

  /** A value that may be absent (`null` or `undefined` in the source). */
  datatype Option<+T> = None | Some(value: T)

  /** The settled state of a promise: fulfilled with a value, or rejected with an error message. */
  datatype Result<+T> = Success(value: T) | Failure(error: string)

  /** JavaScript truthiness of an optional string: absent and empty strings are both falsy. */
  predicate Truthy(s: Option<string>)
  {
    s.Some? && s.value != ""
  }
}

=== FILE: prompts.dfy ===
/** The prompt builder: one fixed template per category, each embedding the product description. */
module Prompts {
  import opened Outcomes
  import opened Text
  import opened Types

  /** A prompt template: the opening words, the text up to the description, and the text after it. */
  datatype Template = Template(opening: string, before: string, after: string)

  /** A template filled in with the product description. */
  function Fill(t: Template, description: string): (p: string)
    ensures Contains(p, description)
    ensures |p| >= |t.opening| && (|t.opening| > 2 ==> p[2] == t.opening[2])
  {
    ContainsInfix(t.opening + t.before, description, t.after);
    t.opening + t.before + description + t.after
  }

  const VideoTemplate: Template :=
    Template("A short, ", "5-second, looping promotional video ad for ",
      ". Dynamic, engaging, and eye-catching, perfect for social media. 4K quality.")

  /** The prompt sent to the video model. */
  function VideoPrompt(description: string): (p: string)
    ensures Contains(p, description)
    ensures |p| > 2 && p[2] == 's'
  {
    Fill(VideoTemplate, description)
  }

  /** The character at index 2 of each category's prompt; no two categories share it. */
  function Signature(c: AssetCategory): char
  {
    match c
    case ProductPhoto => 'o'
    case LifestyleMockup => 'r'
    case PromotionalBanner => 'v'
    case InstagramPost => ' '
    case YouTubeThumbnail => 'c'
    case ShadowEffect => 'd'
    case PromotionalVideo => 's'
  }

  /** The opening words of each image category's prompt. */
  function Opening(c: AssetCategory): (o: string)
    requires IsImageCategory(c)
    ensures |o| > 2 && o[2] == Signature(c)
  {
    match c
    case ProductPhoto => "Professional "
    case LifestyleMockup => "A realistic "
    case PromotionalBanner => "A vibrant, "
    case InstagramPost => "An aesthetic "
    case YouTubeThumbnail => "A compelling "
    case ShadowEffect => "A dramatic "
  }

  /** The rest of each image category's prompt up to the description. */
  function Lead(c: AssetCategory): string
    requires IsImageCategory(c)
  {
    match c
    case ProductPhoto => "4K product photography of "
    case LifestyleMockup => "lifestyle photograph of a person happily using "
    case PromotionalBanner => "eye-catching promotional banner for "
    case InstagramPost => "Instagram post template featuring "
    case YouTubeThumbnail => "YouTube thumbnail about "
    case ShadowEffect => "studio shot of "
  }

  /** What each image category's prompt says after the description. */
  function Tail(c: AssetCategory): string
    requires IsImageCategory(c)
  {
    match c
    case ProductPhoto =>
      ", studio lighting, on a pure white background. Hyper-realistic."
    case LifestyleMockup =>
      " in a bright, modern home setting. The focus is on the product."
    case PromotionalBanner =>
      ". Include the text \"20% OFF\". Modern design aesthetic for an e-commerce website."
    case InstagramPost =>
      ". Minimalist, clean design with space for text. Suitable for a high-end brand."
    case YouTubeThumbnail =>
      ". Bold text \"NEW RELEASE!\" and high-contrast colors to maximize clicks."
    case ShadowEffect =>
      " with a long, soft 3D shadow on a solid-colored background. Minimalist and artistic."
  }

  /** The template of each image category; the promotional video has none. */
  function ImageTemplate(c: AssetCategory): (t: Option<Template>)
    ensures t.Some? <==> IsImageCategory(c)
    ensures t.Some? ==> |t.value.opening| > 2 && t.value.opening[2] == Signature(c)
  {
    if IsImageCategory(c) then Some(Template(Opening(c), Lead(c), Tail(c))) else None
  }

  /** The switch in the image generator: a prompt for each of the six image categories,
      and the "Unsupported image category" error for the remaining member. */
  function ImagePrompt(c: AssetCategory, description: string): (r: Result<string>)
    ensures r.Success? <==> IsImageCategory(c)
    ensures r.Failure? ==> r.error == "Unsupported image category"
    ensures r.Success? ==> Contains(r.value, description)
    ensures r.Success? ==> |r.value| > 2 && r.value[2] == Signature(c)
  {
    match ImageTemplate(c)
    case Some(t) => Success(Fill(t, description))
    case None => Failure("Unsupported image category")
  }

  /** A prompt identifies the category it was built for, whatever the descriptions, and no
      image prompt is ever the video prompt: the seven requests of a run are all distinct. */
  lemma PromptIdentifiesCategory(c: AssetCategory, d: AssetCategory, x: string, y: string)
    requires ImagePrompt(c, x).Success? && ImagePrompt(d, y).Success?
    ensures ImagePrompt(c, x).value == ImagePrompt(d, y).value ==> c == d
    ensures ImagePrompt(c, x).value != VideoPrompt(y)
  {
    var p := ImagePrompt(c, x).value;
    var q := ImagePrompt(d, y).value;
    assert p[2] == Signature(c) && q[2] == Signature(d);
    SignatureInjective(c, d);
    assert Signature(c) != 's';
  }

  /** Each category's prompt is fixed text around the description: two descriptions give
      prompts that differ only in the description. */
  lemma PromptIsTemplate(c: AssetCategory, x: string, y: string)
    requires IsImageCategory(c)
    ensures exists before, after :: ImagePrompt(c, x) == Success(before + x + after)
                                   && ImagePrompt(c, y) == Success(before + y + after)
  {
    var before := Opening(c) + Lead(c);
    assert ImagePrompt(c, x) == Success(before + x + Tail(c));
    assert ImagePrompt(c, y) == Success(before + y + Tail(c));
  }

  lemma SignatureInjective(c: AssetCategory, d: AssetCategory)
    ensures Signature(c) == Signature(d) ==> c == d
  {
    match c
    case ProductPhoto =>
    case LifestyleMockup =>
    case PromotionalBanner =>
    case InstagramPost =>
    case YouTubeThumbnail =>
    case ShadowEffect =>
    case PromotionalVideo =>
  }
}

=== FILE: text.dfy ===
/** String primitives of the JavaScript runtime that the model relies on, over `seq<char>`. */
module Text {

  /** The code points matched by `\s` in an ECMAScript regular expression and removed by
      `String.prototype.trim`: the WhiteSpace and LineTerminator productions of ECMA-262. */
  predicate IsWhitespace(c: char)
  {
    || c == '\t' || c == '\n' || c == '\U{000B}' || c == '\U{000C}' || c == '\r' || c == ' '
    || c == '\U{00A0}' || c == '\U{1680}' || ('\U{2000}' <= c <= '\U{200A}')
    || c == '\U{2028}' || c == '\U{2029}' || c == '\U{202F}' || c == '\U{205F}'
    || c == '\U{3000}' || c == '\U{FEFF}'
  }

  predicate AllWhitespace(s: string)
  {
    forall i :: 0 <= i < |s| ==> IsWhitespace(s[i])
  }

  predicate NoWhitespace(s: string)
  {
    forall i :: 0 <= i < |s| ==> !IsWhitespace(s[i])
  }

  /** `s.includes(t)`: `t` occurs in `s` as a contiguous block. */
  predicate Contains(s: string, t: string)
  {
    exists i :: 0 <= i <= |s| && t <= s[i..]
  }

  lemma ContainsInfix(a: string, t: string, b: string)
    ensures Contains(a + t + b, t)
  {
    var s := a + t + b;
    assert s[|a|..] == t + b;
  }

  // ---------------------------------------------------------------------------
  // split / join on a one-character separator
  // ---------------------------------------------------------------------------

  /** `parts.join(sep)`. */
  function Join(parts: seq<string>, sep: char): string
    requires |parts| >= 1
  {
    if |parts| == 1 then parts[0] else parts[0] + [sep] + Join(parts[1..], sep)
  }

  /** `s.split(sep)` for a one-character separator: the maximal separator-free segments,
      one more than there are separators, which join back to `s`. */
  function Split(s: string, sep: char): (parts: seq<string>)
    ensures |parts| >= 1
    ensures forall i :: 0 <= i < |parts| ==> sep !in parts[i]
    ensures Join(parts, sep) == s
    decreases |s|
  {
    if |s| == 0 then [""]
    else
      var rest := Split(s[1..], sep);
      if s[0] == sep then
        assert s == [sep] + Join(rest, sep);
        [""] + rest
      else
        var parts := [[s[0]] + rest[0]] + rest[1..];
        assert parts[1..] == rest[1..];
        parts
  }

  /** A separator-free string splits into itself alone. */
  lemma {:induction false} SplitNoSeparator(s: string, sep: char)
    requires sep !in s
    ensures Split(s, sep) == [s]
    decreases |s|
  {
    if |s| > 0 {
      assert sep !in s[1..];
      SplitNoSeparator(s[1..], sep);
    }
  }

  /** Splitting at the first separator peels off the separator-free head. */
  lemma {:induction false} SplitAtFirst(x: string, sep: char, y: string)
    requires sep !in x
    ensures Split(x + [sep] + y, sep) == [x] + Split(y, sep)
    decreases |x|
  {
    var s := x + [sep] + y;
    if |x| == 0 {
      assert s[1..] == y;
    } else {
      assert s[1..] == x[1..] + [sep] + y;
      assert sep !in x[1..];
      SplitAtFirst(x[1..], sep, y);
      assert [x[0]] + x[1..] == x;
    }
  }

  /** `split` undoes `join` whenever no part contains the separator. */
  lemma {:induction false} SplitJoin(parts: seq<string>, sep: char)
    requires |parts| >= 1
    requires forall i :: 0 <= i < |parts| ==> sep !in parts[i]
    ensures Split(Join(parts, sep), sep) == parts
    decreases |parts|
  {
    if |parts| == 1 {
      SplitNoSeparator(parts[0], sep);
    } else {
      SplitAtFirst(parts[0], sep, Join(parts[1..], sep));
      SplitJoin(parts[1..], sep);
      assert [parts[0]] + parts[1..] == parts;
    }
  }

  // ---------------------------------------------------------------------------
  // sequence facts the string proofs lean on
  // ---------------------------------------------------------------------------

  lemma Associative<T>(x: seq<T>, y: seq<T>, z: seq<T>)
    ensures x + (y + z) == x + y + z
  {
  }

  lemma Uncons<T>(x: seq<T>, y: seq<T>)
    requires |x| > 0
    ensures (x + y)[0] == x[0] && (x + y)[1..] == x[1..] + y
  {
  }

  lemma Unsnoc<T>(x: seq<T>, y: seq<T>)
    requires |y| > 0
    ensures (x + y)[|x + y| - 1] == y[|y| - 1] && (x + y)[..|x + y| - 1] == x + y[..|y| - 1]
  {
  }

  lemma AppendEmpty<T>(x: seq<T>)
    ensures [] + x == x && x + [] == x
  {
  }

  /** Slicing a suffix again is slicing the original. */
  lemma SliceOfSuffix<T>(s: seq<T>, k: nat, n: nat)
    requires k + n <= |s|
    ensures s[k..][..n] == s[k..k + n] && s[k..][n..] == s[k + n..]
  {
  }

  // ---------------------------------------------------------------------------
  // trim
  // ---------------------------------------------------------------------------

  /** How many whitespace characters `s` starts with. */
  function LeadingSpace(s: string): (n: nat)
    ensures n <= |s|
    ensures forall i :: 0 <= i < n ==> IsWhitespace(s[i])
    ensures n == |s| || !IsWhitespace(s[n])
    decreases |s|
  {
    if |s| > 0 && IsWhitespace(s[0]) then
      var m := LeadingSpace(s[1..]);
      assert forall i :: 1 <= i < 1 + m ==> s[i] == s[1..][i - 1];
      1 + m
    else 0
  }

  /** Where the whitespace that `s` ends with begins. */
  function TrailingSpace(s: string): (n: nat)
    ensures n <= |s|
    ensures forall i :: n <= i < |s| ==> IsWhitespace(s[i])
    ensures n == 0 || !IsWhitespace(s[n - 1])
    decreases |s|
  {
    if |s| > 0 && IsWhitespace(s[|s| - 1]) then
      var n := TrailingSpace(s[..|s| - 1]);
      assert forall i :: n <= i < |s| - 1 ==> s[i] == s[..|s| - 1][i];
      n
    else |s|
  }

  /** The leading whitespace removed, and only that. */
  function TrimStart(s: string): (r: string)
    ensures |r| <= |s| && r == s[|s| - |r|..]
    ensures AllWhitespace(s[..|s| - |r|])
    ensures r == [] || !IsWhitespace(r[0])
  {
    var n := LeadingSpace(s);
    assert forall i :: 0 <= i < n ==> s[..n][i] == s[i];
    s[n..]
  }

  /** The trailing whitespace removed, and only that. */
  function TrimEnd(s: string): (r: string)
    ensures |r| <= |s| && r == s[..|r|]
    ensures AllWhitespace(s[|r|..])
    ensures r == [] || !IsWhitespace(r[|r| - 1])
  {
    var n := TrailingSpace(s);
    assert forall i :: 0 <= i < |s| - n ==> s[n..][i] == s[n + i];
    s[..n]
  }

  /** Neither end of `s` is whitespace. */
  predicate Stripped(s: string)
  {
    s == [] || (!IsWhitespace(s[0]) && !IsWhitespace(s[|s| - 1]))
  }

  /** `s` is `k` whitespace characters, then `r`, then only whitespace. */
  predicate Surrounds(s: string, k: int, r: string)
  {
    && 0 <= k <= |s| - |r|
    && s[k..k + |r|] == r
    && AllWhitespace(s[..k])
    && AllWhitespace(s[k + |r|..])
  }

  /** `s.trim()`: the leading and trailing whitespace removed, and nothing else. */
  function Trim(s: string): (r: string)
    ensures Stripped(r)
    ensures Surrounds(s, |s| - |TrimStart(s)|, r)
  {
    TrimSurrounds(s);
    TrimEnd(TrimStart(s))
  }

  lemma TrimSurrounds(s: string)
    ensures Stripped(TrimEnd(TrimStart(s)))
    ensures Surrounds(s, |s| - |TrimStart(s)|, TrimEnd(TrimStart(s)))
  {
    var t := TrimStart(s);
    var r := TrimEnd(t);
    assert r != [] ==> r[0] == t[0];
    SurroundsByParts(s, t, r);
  }

  /** A suffix `t` after leading whitespace, and a prefix `r` of it before trailing whitespace,
      make `s` surround `r`. */
  lemma SurroundsByParts(s: string, t: string, r: string)
    requires |t| <= |s| && t == s[|s| - |t|..] && AllWhitespace(s[..|s| - |t|])
    requires |r| <= |t| && r == t[..|r|] && AllWhitespace(t[|r|..])
    ensures Surrounds(s, |s| - |t|, r)
  {
    var k := |s| - |t|;
    SliceOfSuffix(s, k, |r|);
  }

  lemma {:induction false} TrimStartSkipsWhitespace(a: string, x: string)
    requires AllWhitespace(a)
    ensures TrimStart(a + x) == TrimStart(x)
    decreases |a|
  {
    if |a| > 0 {
      Uncons(a, x);
      TrimStartSkipsWhitespace(a[1..], x);
    } else {
      AppendEmpty(x);
    }
  }

  lemma {:induction false} TrimEndSkipsWhitespace(x: string, b: string)
    requires AllWhitespace(b)
    ensures TrimEnd(x + b) == TrimEnd(x)
    decreases |b|
  {
    if |b| > 0 {
      Unsnoc(x, b);
      TrimEndSkipsWhitespace(x, b[..|b| - 1]);
    } else {
      AppendEmpty(x);
    }
  }

  /** The decomposition `Trim` promises is unique: whatever whitespace surrounds a stripped
      string, trimming recovers exactly that string. */
  lemma TrimUnique(a: string, r: string, b: string)
    requires AllWhitespace(a) && AllWhitespace(b) && Stripped(r)
    ensures Trim(a + r + b) == r
  {
    var s := a + r + b;
    assert s == a + (r + b);
    TrimStartSkipsWhitespace(a, r + b);
    if r == [] {
      assert r + b == b + [];
      TrimStartSkipsWhitespace(b, []);
      assert TrimStart(s) == [];
    } else {
      assert (r + b)[0] == r[0];
      assert TrimStart(s) == r + b;
      TrimEndSkipsWhitespace(r, b);
      assert TrimEnd(r) == r;
    }
    assert Trim(s) == TrimEnd(TrimStart(s));
  }

  /** Trimming twice is trimming once. */
  lemma TrimIdempotent(s: string)
    ensures Trim(Trim(s)) == Trim(s)
  {
    TrimStripped(Trim(s));
  }

  /** A stripped string is its own trim. */
  lemma TrimStripped(r: string)
    requires Stripped(r)
    ensures Trim(r) == r
  {
    assert LeadingSpace(r) == 0;
    assert TrimStart(r) == r;
    assert TrailingSpace(r) == |r|;
  }
}

=== FILE: types.dfy ===
/** The closed data types shared by the service and the presentation layer. */
module Types {

  /** The kinds of marketing material the generator can produce. */
  datatype AssetCategory =
    | ProductPhoto
    | LifestyleMockup
    | PromotionalBanner
    | InstagramPost
    | YouTubeThumbnail
    | ShadowEffect
    | PromotionalVideo

  /** The string value each enum member carries; it doubles as the asset's display title. */
  function Value(c: AssetCategory): string
  {
    match c
    case ProductPhoto => "Product Photo (White Background)"
    case LifestyleMockup => "Lifestyle Mockup (with Model)"
    case PromotionalBanner => "Promotional Banner"
    case InstagramPost => "Instagram Post"
    case YouTubeThumbnail => "YouTube Thumbnail"
    case ShadowEffect => "3D Shadow Effect"
    case PromotionalVideo => "Promotional Video"
  }

  /** Every member, in declaration order. */
  const AllCategories: seq<AssetCategory> :=
    [ProductPhoto, LifestyleMockup, PromotionalBanner, InstagramPost,
     YouTubeThumbnail, ShadowEffect, PromotionalVideo]

  /** The members rendered as still images; every other member is a video. */
  predicate IsImageCategory(c: AssetCategory)
  {
    !c.PromotionalVideo?
  }

  /** The `type` field of an asset: exactly `'image'` or `'video'`. */
  datatype MediaType = Image | Video

  function MediaTypeName(m: MediaType): string
  {
    match m
    case Image => "image"
    case Video => "video"
  }

  /** One generated asset. Its title is always a category, by construction. */
  datatype GeneratedAsset = GeneratedAsset(title: AssetCategory, url: string, kind: MediaType, prompt: string)

  /** The enumeration lists seven members, each exactly once, and covers every category. */
  lemma AllCategoriesComplete()
    ensures |AllCategories| == 7
    ensures forall c: AssetCategory :: c in AllCategories
    ensures forall i, j :: 0 <= i < j < |AllCategories| ==> AllCategories[i] != AllCategories[j]
  {
    forall c: AssetCategory
      ensures c in AllCategories
    {
      match c
      case ProductPhoto => assert AllCategories[0] == c;
      case LifestyleMockup => assert AllCategories[1] == c;
      case PromotionalBanner => assert AllCategories[2] == c;
      case InstagramPost => assert AllCategories[3] == c;
      case YouTubeThumbnail => assert AllCategories[4] == c;
      case ShadowEffect => assert AllCategories[5] == c;
      case PromotionalVideo => assert AllCategories[6] == c;
    }
  }

  /** Distinct members carry distinct string values, so a value identifies its member. */
  lemma ValueInjective(c: AssetCategory, d: AssetCategory)
    ensures Value(c) == Value(d) <==> c == d
  {
    if c != d {
      // the length and the first character already tell all seven values apart
      assert |Value(c)| != |Value(d)| || Value(c)[0] != Value(d)[0];
    }
  }

  /** Six members are image categories and the promotional video is the one that remains. */
  lemma ImageCategoriesAreAllButVideo()
    ensures |set c | c in AllCategories && IsImageCategory(c)| == 6
    ensures forall c :: !IsImageCategory(c) <==> c == PromotionalVideo
  {
    var images := set c | c in AllCategories && IsImageCategory(c);
    assert images == {ProductPhoto, LifestyleMockup, PromotionalBanner, InstagramPost,
                      YouTubeThumbnail, ShadowEffect};
  }

  /** The two media type names differ. */
  lemma MediaTypeNameInjective(m: MediaType, n: MediaType)
    ensures MediaTypeName(m) == MediaTypeName(n) <==> m == n
  {
  }
}

=== FILE: uploader.dfy ===
/** The upload widget's logic: validating the chosen file, the state it keeps, and what a
    submission forwards to the generator. Browser events are a sequence of inputs: a file being
    chosen, or one of the outstanding `FileReader` reads finishing. */
module Uploader {
  import opened Outcomes
  import opened DataUrl

  const AcceptedTypes: seq<string> := ["image/jpeg", "image/png", "image/webp"]

  /** 5 MiB. */
  const MaxSize: nat := 5 * 1024 * 1024

  const InvalidTypeMessage := "Invalid file type. Please upload a JPG, PNG, or WEBP file."
  const TooLargeMessage := "File is too large. Please upload an image smaller than 5MB."

  /** The base64 text a `FileReader` produces for a file's bytes. */
  type Base64Text = s: string | IsBase64(s)

  /** A chosen file: its declared MIME type, its size in bytes, and its content as base64. */
  datatype File = File(mimeType: string, size: nat, content: Base64Text)

  /** The data URL a `FileReader` produces for a file. */
  function DataUrlOf(f: File): string
  {
    ToDataUrl(f.content, f.mimeType)
  }

  /** The type check, then the size check: the first that fails names the error. */
  function Validate(f: File): (error: Option<string>)
    ensures error.None? <==> f.mimeType in AcceptedTypes && f.size <= 5242880
    ensures f.mimeType !in AcceptedTypes ==> error == Some(InvalidTypeMessage)
    ensures f.mimeType in AcceptedTypes && f.size > 5242880 ==> error == Some(TooLargeMessage)
  {
    if f.mimeType !in AcceptedTypes then Some(InvalidTypeMessage)
    else if f.size > MaxSize then Some(TooLargeMessage)
    else None
  }

  predicate Accepted(f: File)
  {
    Validate(f).None?
  }

  /** The size bound is inclusive: exactly 5 MiB passes, one byte more does not. */
  lemma SizeBoundary(t: string, content: Base64Text)
    requires t in AcceptedTypes
    ensures Accepted(File(t, 5242880, content))
    ensures Validate(File(t, 5242881, content)) == Some(TooLargeMessage)
  {
  }

  /** The type check comes first: a file of the wrong type is reported as such even when it is
      also too large. */
  lemma TypeCheckedFirst(f: File)
    requires f.mimeType !in AcceptedTypes && f.size > MaxSize
    ensures Validate(f) == Some(InvalidTypeMessage)
  {
  }

  /** The widget's state: the chosen file, the preview data URL, the error shown, and the files
      whose reads are still outstanding. */
  datatype State = State(file: Option<File>, preview: Option<string>, error: Option<string>,
                               reading: seq<File>)

  const Initial := State(None, None, None, [])

  /** `handleFileChange`: no file chosen changes nothing; a rejected file sets the error and
      clears file and preview; an accepted file clears the error, becomes the chosen file, and
      starts a read. The preview is left as it was until that read finishes. */
  function SelectFile(s: State, chosen: Option<File>): (t: State)
    ensures chosen.None? ==> t == s
    ensures chosen.Some? && !Accepted(chosen.value) ==>
      t.error == Validate(chosen.value) && t.file.None? && t.preview.None? && t.reading == s.reading
    ensures chosen.Some? && Accepted(chosen.value) ==>
      t.error.None? && t.file == chosen && t.preview == s.preview && t.reading == s.reading + [chosen.value]
  {
    match chosen
    case None => s
    case Some(f) =>
      match Validate(f)
      case Some(e) => s.(file := None, preview := None, error := Some(e))
      case None => s.(file := Some(f), error := None, reading := s.reading + [f])
  }

  /** Outstanding read `i` finishing, successfully when `ok`: the reader's `onloadend` stores
      its result as the preview, whichever file is chosen by then. A successful read's result is
      the file's data URL; a failed or aborted read's result is `null`, which clears the preview. */
  function ReadFinished(s: State, i: nat, ok: bool): (t: State)
    ensures i < |s.reading| ==>
      && (ok ==> t.preview == Some(DataUrlOf(s.reading[i])))
      && (!ok ==> t.preview.None?)
      && t.file == s.file && t.error == s.error
      && multiset(t.reading) == multiset(s.reading) - multiset{s.reading[i]}
    ensures i >= |s.reading| ==> t == s
  {
    if i < |s.reading| then
      RemoveAt(s.reading, i);
      s.(preview := if ok then Some(DataUrlOf(s.reading[i])) else None,
         reading := s.reading[..i] + s.reading[i + 1..])
    else s
  }

  /** Removing the element at `i` removes exactly one occurrence of it. */
  lemma RemoveAt<T>(xs: seq<T>, i: nat)
    requires i < |xs|
    ensures multiset(xs[..i] + xs[i + 1..]) == multiset(xs) - multiset{xs[i]}
  {
    assert xs == xs[..i] + [xs[i]] + xs[i + 1..];
  }

  /** What a submission hands to the generator: the preview's payload (`undefined` when the
      preview has no comma) and the chosen file's own MIME type. */
  datatype Submission = Submission(data: Option<string>, mimeType: string)

  /** `handleSubmit`: nothing happens unless a file is chosen and the preview is non-empty. */
  function Submit(s: State): (r: Option<Submission>)
    ensures r.Some? <==> s.file.Some? && Truthy(s.preview)
    ensures r.Some? ==> r.value.mimeType == s.file.value.mimeType && r.value.data == Payload(s.preview.value)
  {
    if s.file.None? || !Truthy(s.preview) then None
    else Some(Submission(Payload(s.preview.value), s.file.value.mimeType))
  }

  /** Whether the generate button is enabled: it is disabled without a file, while the parent
      disables it, or while an error is shown. */
  function SubmitEnabled(s: State, disabled: bool): (enabled: bool)
    ensures enabled <==> s.file.Some? && !disabled && !Truthy(s.error)
  {
    !(s.file.None? || disabled || Truthy(s.error))
  }

  /** A browser event the widget reacts to. */
  datatype Event = Choose(chosen: Option<File>) | ReadDone(index: nat, ok: bool)

  function Step(s: State, e: Event): State
  {
    match e
    case Choose(f) => SelectFile(s, f)
    case ReadDone(i, ok) => ReadFinished(s, i, ok)
  }

  /** The state after a sequence of events, starting from the empty widget. */
  function Replay(events: seq<Event>): State
  {
    if |events| == 0 then Initial
    else Step(Replay(events[..|events| - 1]), events[|events| - 1])
  }

  /** What every reachable state satisfies: the chosen file passed validation and no error is
      shown alongside it; an error shown is one of the two messages; every read in flight is of
      an accepted file. */
  predicate Consistent(s: State)
  {
    && (s.file.Some? ==> Accepted(s.file.value) && s.error.None?)
    && (s.error.Some? ==> s.error.value in {InvalidTypeMessage, TooLargeMessage})
    && (forall i :: 0 <= i < |s.reading| ==> Accepted(s.reading[i]))
  }

  lemma StepConsistent(s: State, e: Event)
    requires Consistent(s)
    ensures Consistent(Step(s, e))
  {
    match e
    case Choose(f) =>
    case ReadDone(i, ok) =>
      if i < |s.reading| {
        var rest := s.reading[..i] + s.reading[i + 1..];
        assert forall j :: 0 <= j < |rest| ==> rest[j] in s.reading;
      }
  }

  lemma {:induction false} ReplayConsistent(events: seq<Event>)
    ensures Consistent(Replay(events))
  {
    if |events| > 0 {
      ReplayConsistent(events[..|events| - 1]);
      StepConsistent(Replay(events[..|events| - 1]), events[|events| - 1]);
    }
  }

  /** Whatever the user did, a submission forwards one of the three accepted MIME types. */
  lemma SubmittedTypeAccepted(events: seq<Event>)
    requires Submit(Replay(events)).Some?
    ensures Submit(Replay(events)).value.mimeType in AcceptedTypes
  {
    ReplayConsistent(events);
  }

  /** Whatever the user did, the button is enabled exactly when a file is chosen and the parent
      does not disable it: a chosen file never coexists with an error. */
  lemma EnabledIffFileChosen(events: seq<Event>, disabled: bool)
    ensures SubmitEnabled(Replay(events), disabled) <==> Replay(events).file.Some? && !disabled
  {
    ReplayConsistent(events);
  }

  // ---------------------------------------------------------------------------
  // stale preview
  // ---------------------------------------------------------------------------

  lemma ReplayThree(e1: Event, e2: Event, e3: Event)
    ensures Replay([e1, e2, e3]) == Step(Step(Step(Initial, e1), e2), e3)
  {
    assert [e1, e2, e3][..2] == [e1, e2];
    assert Replay([e1, e2, e3]) == Step(Replay([e1, e2]), e3);
    assert [e1, e2][..1] == [e1];
    assert Replay([e1, e2]) == Step(Replay([e1]), e2);
    assert [e1][..0] == [];
    assert Replay([e1]) == Step(Initial, e1);
  }

  lemma ReplayFour(e1: Event, e2: Event, e3: Event, e4: Event)
    ensures Replay([e1, e2, e3, e4]) == Step(Step(Step(Step(Initial, e1), e2), e3), e4)
  {
    assert [e1, e2, e3, e4][..3] == [e1, e2, e3];
    ReplayThree(e1, e2, e3);
  }

  /** Choosing a second file keeps the first file's preview until the new read finishes, so a
      submission in between pairs the first file's data with the second file's MIME type. */
  lemma StalePreviewSubmission(a: File, b: File)
    requires Accepted(a) && Accepted(b)
    ensures Submit(Replay([Choose(Some(a)), ReadDone(0, true), Choose(Some(b))]))
              == Some(Submission(Some(a.content), b.mimeType))
  {
    var s1 := Step(Initial, Choose(Some(a)));
    assert s1.reading == [a] && s1.file == Some(a);
    var s2 := Step(s1, ReadDone(0, true));
    assert s2.preview == Some(DataUrlOf(a));
    var s3 := Step(s2, Choose(Some(b)));
    assert s3.file == Some(b) && s3.preview == Some(DataUrlOf(a));
    ReplayThree(Choose(Some(a)), ReadDone(0, true), Choose(Some(b)));
    Base64HasNoComma(a.content);
    assert ',' !in a.mimeType;
    PayloadRoundTrip(a.content, a.mimeType);
  }

  /** A late read is applied too: a file whose read finishes after another file was chosen
      still becomes the preview. */
  lemma LateReadOverwrites(a: File, b: File)
    requires Accepted(a) && Accepted(b)
    ensures var s := Replay([Choose(Some(a)), Choose(Some(b)), ReadDone(1, true), ReadDone(0, true)]);
      s.file == Some(b) && s.preview == Some(DataUrlOf(a))
  {
    ReplayFour(Choose(Some(a)), Choose(Some(b)), ReadDone(1, true), ReadDone(0, true));
    var s1 := SelectFile(Initial, Some(a));
    assert s1.reading == [a];
    var s2 := SelectFile(s1, Some(b));
    assert s2.reading == [a, b] && s2.file == Some(b);
    var s3 := ReadFinished(s2, 1, true);
    assert s2.reading[..1] + s2.reading[2..] == [a];
    assert s3.reading == [a] && s3.file == Some(b);
    var s4 := ReadFinished(s3, 0, true);
    assert s4.file == Some(b) && s4.preview == Some(DataUrlOf(a));
  }

  /** `handleFileChange` with the preview cleared on acceptance, so no earlier file's preview
      outlives the choice of a new one. */
  function SelectFileFixed(s: State, chosen: Option<File>): (t: State)
    ensures chosen.Some? && Accepted(chosen.value) ==>
      t.preview.None? && t.file == chosen && t.error.None? && t.reading == s.reading + [chosen.value]
    ensures chosen.Some? && Accepted(chosen.value) ==> t == SelectFile(s, chosen).(preview := None)
    ensures chosen.Some? && !Accepted(chosen.value) ==> t == SelectFile(s, chosen)
    ensures chosen.None? ==> t == s
  {
    var t := SelectFile(s, chosen);
    if chosen.Some? && Accepted(chosen.value) then t.(preview := None) else t
  }

  /** A finished read only touches the preview when its file is still the chosen one. */
  function ReadFinishedFixed(s: State, i: nat, ok: bool): (t: State)
    ensures t.file == s.file && t.error == s.error
    ensures t.preview != s.preview ==> i < |s.reading| && s.file == Some(s.reading[i])
    ensures i < |s.reading| && s.file == Some(s.reading[i]) ==>
      && (ok ==> t.preview == Some(DataUrlOf(s.reading[i])))
      && (!ok ==> t.preview.None?)
    ensures i < |s.reading| ==> multiset(t.reading) == multiset(s.reading) - multiset{s.reading[i]}
    ensures i >= |s.reading| ==> t == s
  {
    var t := ReadFinished(s, i, ok);
    if i < |s.reading| && s.file != Some(s.reading[i]) then t.(preview := s.preview) else t
  }

  function StepFixed(s: State, e: Event): State
  {
    match e
    case Choose(f) => SelectFileFixed(s, f)
    case ReadDone(i, ok) => ReadFinishedFixed(s, i, ok)
  }

  function ReplayFixed(events: seq<Event>): State
  {
    if |events| == 0 then Initial
    else StepFixed(ReplayFixed(events[..|events| - 1]), events[|events| - 1])
  }

  /** With the fix, a preview is always the data URL of the chosen file. */
  predicate PreviewMatchesFile(s: State)
  {
    s.preview.Some? ==> s.file.Some? && s.preview.value == DataUrlOf(s.file.value)
  }

  lemma {:induction false} ReplayFixedConsistent(events: seq<Event>)
    ensures Consistent(ReplayFixed(events)) && PreviewMatchesFile(ReplayFixed(events))
  {
    if |events| > 0 {
      var s := ReplayFixed(events[..|events| - 1]);
      ReplayFixedConsistent(events[..|events| - 1]);
      StepConsistent(s, events[|events| - 1]);
    }
  }

  /** With the fix, whatever the user did, a submission forwards exactly the chosen file: its
      own base64 content and its own MIME type. */
  lemma SubmissionIsChosenFile(events: seq<Event>)
    requires Submit(ReplayFixed(events)).Some?
    ensures var s := ReplayFixed(events);
      Submit(s) == Some(Submission(Some(s.file.value.content), s.file.value.mimeType))
  {
    ReplayFixedConsistent(events);
    SubmitMatchingPreview(ReplayFixed(events));
  }

  /** A state whose preview is the chosen file's data URL submits exactly that file. */
  lemma SubmitMatchingPreview(s: State)
    requires Consistent(s) && PreviewMatchesFile(s) && Submit(s).Some?
    ensures Submit(s) == Some(Submission(Some(s.file.value.content), s.file.value.mimeType))
  {
    var f := s.file.value;
    Base64HasNoComma(f.content);
    assert ',' !in f.mimeType;
    PayloadRoundTrip(f.content, f.mimeType);
  }

  /** With the fix, whatever happened before, choosing an accepted file and letting its read
      finish makes a submission of exactly that file. */
  lemma ChosenFileSubmits(events: seq<Event>, a: File)
    requires Accepted(a)
    ensures var n := |ReplayFixed(events).reading|;
      Submit(ReplayFixed(events + [Choose(Some(a)), ReadDone(n, true)]))
        == Some(Submission(Some(a.content), a.mimeType))
  {
    var s := ReplayFixed(events);
    var n := |s.reading|;
    var chose := events + [Choose(Some(a))];
    var read := chose + [ReadDone(n, true)];
    assert events + [Choose(Some(a)), ReadDone(n, true)] == read;
    assert read[..|read| - 1] == chose;
    assert chose[..|chose| - 1] == events;
    var s1 := ReplayFixed(chose);
    assert s1 == SelectFileFixed(s, Some(a));
    assert s1.reading[n] == a && s1.file == Some(a);
    var s2 := ReplayFixed(read);
    assert s2 == ReadFinishedFixed(s1, n, true);
    assert s2.file == Some(a) && s2.preview == Some(DataUrlOf(a));
    ReplayFixedConsistent(read);
    SubmitMatchingPreview(s2);
  }
}
